=== FILE: README.md ===
# FHIR patient client — a Dafny model

A model of the data handling inside a small browser client for an HL7 FHIR R4
server (HAPI FHIR). The client creates, searches, updates and deletes `Patient`
resources. Its logic is a flat form record (given name, middle names, family
name, gender, phone, birth date) mapped to and from the nested `Patient`
resource (`name` as a `HumanName` list, `telecom` as a `ContactPoint` list). It
also picks paging links out of a search `Bundle`, builds the search query
string, and moves each form between loading, success and error states.

Requests are data: `FhirApi.Request` holds the verb, URL, content type and JSON
body the client would send. Responses are inputs: `Http.Settled` is either a
rejection (a network failure) or a response with `ok`, `status`, `statusText`
and the outcome of parsing its JSON body. Each async handler is split into a
`...Begin` function (the state and the request issued) and a `...Finish`
function (the state once the request settles).

| module | file | models |
|---|---|---|
| `Text` | text.dfy | JavaScript `split`/`join` on one character, `includes`, `${n}` for numbers, first-letter upper-casing |
| `Seqs` | seqs.dfy | `filter`, `at(0)`, `map` |
| `Fhir` | fhir.dfy | `Patient`, `HumanName`, `ContactPoint`, `Bundle` with every member except `resourceType` optional, as parsed JSON |
| `Records` | records.dfy | the flat form record and the one-field update of `handleInput` |
| `Http` | http.dfy | settled fetches and the messages the `catch` blocks store |
| `FhirApi` | fhir_api.dfy | `src/services/FhirApi.tsx` |
| `UpdatePatient` | update_patient.dfy | `src/UpdatePatient.tsx` |
| `CreatePatient` | create_patient.dfy | `src/CreatePatient.tsx` |
| `GetPatients` | get_patients.dfy | `src/GetPatients.tsx` |
| `RoundTrip` | round_trip.dfy | payload building composed with the update form's read-back |

The main result is `Text.JoinSplit`: `join(split(s, ' '), ' ') == s` for every
string, with JavaScript's rules (`""` splits to `[""]`, doubled spaces give
empty tokens, nothing is filtered out). From it, `RoundTrip.CreateRoundTrip`
shows that reading a create payload back gives every form field exactly.
`RoundTrip.UpdateRoundTrip` shows that an update payload comes back with the
phone number `""`.

Behaviour the model takes from the code as it stands:
- A paging button is disabled when its link is not truthy (`!previous`). That
  covers an empty-string link as well as an absent one; the initial state holds
  `""` for both.
- The search view and the load effect never look at `ok`. Any parsed body is
  read as a Bundle or a Patient. A body with neither `link` nor `entry` is
  `Bundle(None, None)`, and it shows "No patients found".
- A create that succeeds without an `id` in the response navigates to
  `/patient/undefined`, which is what the template literal renders.
- No success path clears a previous error message.

## Model

| member | source | states |
|---|---|---|
| Text.JoinSplit | src/services/FhirApi.tsx:26 | joining the tokens of `split(' ')` with single spaces gives back the original string, for every string |
| Text.SplitLength | src/services/FhirApi.tsx:26 | `split` yields one more token than the string has separators, so blank middle names still give one token |
| Text.SplitTokensFree | src/services/FhirApi.tsx:26 | no token produced by `split` contains the separator |
| Text.SplitJoin | src/UpdatePatient.tsx:45 | a non-empty list of separator-free tokens, joined and split again, is unchanged |
| Text.IncludesIff | src/services/FhirApi.tsx:14 | the left-to-right `includes` scan succeeds exactly when the marker occurs as a substring |
| Text.DecimalRoundTrip | src/UpdatePatient.tsx:79 | the decimal text of a status code reads back as the same number |
| Text.Capitalise | src/GetPatients.tsx:109 | same length; the first character upper-cased, the rest unchanged |
| Seqs.FirstOfFilter | src/UpdatePatient.tsx:48 | `filter(p).at(0)` is the first element satisfying `p` wherever it sits, and undefined exactly when none does |
| Records.WithField | src/UpdatePatient.tsx:64 | the spread update sets the named field and leaves every other field and the id unchanged |
| Http.FailureMessage | src/UpdatePatient.tsx:78-83 | for a non-ok response the stored message names the status code |
| Http.RequestFailedInjective | src/UpdatePatient.tsx:79 | two request-failed messages are equal only for the same status and status text |
| FhirApi.NewClient | src/services/FhirApi.tsx:8-10 | the base URL is never empty: the argument when non-empty, otherwise `localhost:8080/fhir` |
| FhirApi.GetResources | src/services/FhirApi.tsx:12-16 | a search string containing `getpages` is fetched verbatim; any other goes to `base/search` |
| FhirApi.GetTarget | src/services/FhirApi.tsx:12-16 | with the target tagged, a relative search always lands under the base URL and a paging link is fetched as it is |
| FhirApi.GivenNames | src/services/FhirApi.tsx:26 | the given list starts with the given name, has 2 + (spaces in middle names) entries, and its tail is the split middle names with no token filtered out |
| FhirApi.ToWireCreate | src/services/FhirApi.tsx:26-28 | resourceType `Patient`, no id, one name entry, one phone contact point, gender and birth date copied even when blank |
| FhirApi.ToWireUpdate | src/services/FhirApi.tsx:42-43 | the supplied id, the same name as the create payload, and no telecom at all |
| FhirApi.ToWireUpdateKeepingPhone | src/services/FhirApi.tsx:42-43 | the corrected update payload: the create payload with the id added, phone included |
| FhirApi.GetResourceById | src/services/FhirApi.tsx:18-22 | GET to `base/type/id` with no content type and no body |
| FhirApi.PostResource | src/services/FhirApi.tsx:24-38 | POST to `base/type` with JSON content type and the create payload |
| FhirApi.PutResource | src/services/FhirApi.tsx:40-53 | PUT to `base/type/id` with JSON content type and the update payload |
| FhirApi.DeleteResource | src/services/FhirApi.tsx:55-64 | DELETE to `base/type/id` with JSON content type and no body |
| FhirApi.UrlShapes | src/services/FhirApi.tsx:18-57 | get-by-id, PUT and DELETE share `base/type/id`, which is the POST target plus `/id`, and splits back into type and id |
| UpdatePatient.PhoneOf | src/UpdatePatient.tsx:48 | the phone is the value of the first `phone` contact point wherever it sits, `""` without one |
| UpdatePatient.FromWire | src/UpdatePatient.tsx:42-50 | id copied; given name, middle names, family name, gender, birth date and phone read from the first name entry and telecom list, each `""` when missing |
| UpdatePatient.FromWireMiddleNames | src/UpdatePatient.tsx:44-45 | the middle-names field splits back into the given names after the first |
| UpdatePatient.LoadBegin | src/UpdatePatient.tsx:30-34 | without a route id nothing happens; with one, loading starts and `base/Patient/id` is fetched |
| UpdatePatient.LoadFinish | src/UpdatePatient.tsx:35-58 | a parsed resource fills the form and marks it loaded; a rejection stores its message; loading ends on both |
| UpdatePatient.HandleInput | src/UpdatePatient.tsx:61-65 | only the named field changes; the flags, error and id are untouched |
| UpdatePatient.DeleteBegin | src/UpdatePatient.tsx:67-72 | loading on, the updated flag cleared, DELETE of the instance issued with the JSON content type and no body |
| UpdatePatient.DeleteFinish | src/UpdatePatient.tsx:74-86 | success sets deleted and blanks all seven fields; failure stores `Request failed: <status> <statusText>` or the caught message and keeps the fields; loading off |
| UpdatePatient.SubmitBegin | src/UpdatePatient.tsx:89-96 | loading on, the updated flag cleared, PUT of the update body built from the current fields to the instance, with the JSON content type |
| UpdatePatient.SubmitFinish | src/UpdatePatient.tsx:98-111 | success sets updated; failure stores the message; fields never touched; loading off |
| UpdatePatient.DeletedIsFinal | src/UpdatePatient.tsx:165-166 | once deleted, no later event re-enables the Update and Delete buttons |
| UpdatePatient.DisabledIff | src/UpdatePatient.tsx:74-77 | after any sequence of events the buttons are disabled exactly when they were at the start or some event was a successful delete |
| UpdatePatient.ButtonsEnabledUntilDelete | src/UpdatePatient.tsx:12-25 | the form starts with the buttons enabled, and they are disabled after a run exactly when it holds a successful delete |
| UpdatePatient.DeleteDisablesButtons | src/UpdatePatient.tsx:74-77 | a successful delete disables both buttons for every later sequence of events |
| CreatePatient.HandleInput | src/CreatePatient.tsx:23-27 | only the named field changes; the error and loading flag are untouched |
| CreatePatient.GenderAfterInputs | src/CreatePatient.tsx:85-94 | gender keeps its value until a gender event, after which it is one of the four options |
| CreatePatient.GenderStaysBlankUntilPicked | src/CreatePatient.tsx:85-89 | from the initial record, gender is `""` exactly until the user picks an option, and is never `blank` |
| CreatePatient.SubmitBegin | src/CreatePatient.tsx:29-35 | loading on, POST of the create payload to `base/Patient` with the JSON content type |
| CreatePatient.SubmitFinish | src/CreatePatient.tsx:37-50 | it navigates exactly on success, to `/patient/<id>`; failure stores a message naming the status and keeps the fields; loading off |
| GetPatients.FetchBegin | src/GetPatients.tsx:25-29 | loading on and the search request issued |
| GetPatients.InitialLoad | src/GetPatients.tsx:21-23 | the mount effect requests `base/Patient?_count=10` |
| GetPatients.LinkUrl | src/GetPatients.tsx:34-35 | the URL of the first link with the relation, undefined without one or without a link list |
| GetPatients.FetchFinish | src/GetPatients.tsx:30-44 | the paging links come from the Bundle; the patient list is each entry's resource in order, undefined without entries; errors keep the old data and store the message or `Unable to GET /Patient` |
| GetPatients.Render | src/GetPatients.tsx:65-135 | "No patients found" exactly when there is no list; a throw exactly when some entry has no resource (`patient.id` of `undefined`); otherwise the table of those resources in order, with paging only for a non-empty list and each button disabled when its link is not truthy |
| GetPatients.EntryWithoutResourceThrows | src/GetPatients.tsx:103-105 | a fetched search result with any entry lacking `resource` makes rendering throw |
| GetPatients.TableOfResources | src/GetPatients.tsx:103-117 | a list whose entries all carry a resource renders exactly those resources as rows |
| GetPatients.FollowLink | src/GetPatients.tsx:130-133 | a paging button only turns loading on and issues `getResources` for its stored link: verbatim when it contains `getpages`, otherwise under the base URL |
| GetPatients.OnlyPreviousLink | src/GetPatients.tsx:34-35 | with only a `previous` link and a non-empty page of patients, the table shows those patients, Next is disabled and Previous is enabled; it fetches that link verbatim when it contains `getpages`, otherwise under the base URL |
| GetPatients.SetParam | src/GetPatients.tsx:48-55 | an existing key takes the value in place and the length is unchanged; a new key is appended; other keys keep value and order |
| GetPatients.SetParamKeepsOrder | src/GetPatients.tsx:53 | setting a parameter keeps keys unique and existing keys in their positions |
| GetPatients.QueryEmptyIff | src/GetPatients.tsx:60-62 | the query string is empty exactly when every value is empty |
| GetPatients.QuerySplitsIntoPieces | src/GetPatients.tsx:60 | without `&` in keys and encoded values, the query splits back into its `key=value` fragments |
| GetPatients.SearchPath | src/GetPatients.tsx:62 | `Patient` for an empty query, otherwise `Patient?` followed by the query |
| GetPatients.SubmitSearch | src/GetPatients.tsx:57-63 | the search path goes through `getResources`: `base/Patient` with no non-empty filter, `base/Patient?query` for a query whose path lacks `getpages`, and the bare relative path when the query contains `getpages` |
| GetPatients.SearchValueEscapesBase | src/GetPatients.tsx:62 | a family filter of `getpages` sends the relative path `Patient?family=getpages` without the base URL |
| GetPatients.SubmitSearchTargeted | src/GetPatients.tsx:62 | with a tagged target the search always goes to `base/Patient[?query]` |
| GetPatients.GenderDisplay | src/GetPatients.tsx:109 | nothing for an absent or empty gender, otherwise the same length with only the first character upper-cased |
| GetPatients.GenderDisplayKeepsCapitalised | src/GetPatients.tsx:109 | a gender that does not start with a lower-case letter displays unchanged |
| GetPatients.GenderDisplayCodes | src/GetPatients.tsx:109 | `male`, `female`, `other`, `unknown` display as `Male`, `Female`, `Other`, `Unknown` |
| RoundTrip.CreateRoundTrip | src/services/FhirApi.tsx:26-28 | reading a create payload back reproduces all six form fields exactly |
| RoundTrip.UpdateRoundTrip | src/services/FhirApi.tsx:42-43 | reading an update payload back gives the id and every field, except the phone, which is `""` |
| RoundTrip.UpdateKeepingPhoneRoundTrip | src/services/FhirApi.tsx:42-43 | with the phone kept, reading an update payload back reproduces every field |
| RoundTrip.CreatePayloadShaped | src/services/FhirApi.tsx:26-28 | every create payload has one name with space-free middle tokens and exactly one phone contact point |
| RoundTrip.WireRoundTrip | src/UpdatePatient.tsx:42-50 | a resource of that shape, read into the form and posted again, is unchanged |
| RoundTrip.SingleGivenNameGainsBlank | src/UpdatePatient.tsx:43-44 | a loaded patient with one given name gets blank middle names, and the PUT body then carries the given names `[g, ""]` |
| RoundTrip.TwoMiddleNames | src/services/FhirApi.tsx:26 | two space-separated middle names become the second and third given names |
| RoundTrip.JaneCreatePayload | src/services/FhirApi.tsx:26-27 | Jane / "Ann Marie" / Smith gives `given = [Jane, Ann, Marie]` and one phone entry |
| RoundTrip.BlankMiddleNames | src/services/FhirApi.tsx:26 | blank middle names still add one `""` given name |
| RoundTrip.PhoneBehindFax | src/UpdatePatient.tsx:48 | a phone entry after a fax entry is still found |

## Left out

- `fetch`, promises, `async`/`await` and JSON (de)serialisation. Requests are returned as data, and responses are inputs.
- React hooks, rendering, react-bootstrap layout and routing. `src/App.tsx` only wires components and routes.
- Validation the browser enforces: `required`, the phone `pattern="[0-9]{10,14}"`, and the date `max` taken from the clock. No code checks these.
- `encodeURIComponent` is a function parameter with no properties assumed. Two lemmas place a requirement on it, and the real function meets both. `GetPatients.SearchValueEscapesBase` asks that it leave `getpages` unchanged. `GetPatients.QuerySplitsIntoPieces` asks that no encoded value contains `&`.
- Text.Capitalise: upper-cases ASCII letters only. JavaScript's `toUpperCase` also maps non-ASCII letters, and can lengthen the string (`ß` becomes `SS`). The gender codes are ASCII.
- GetPatients.SetParam: search keys that look like integers, which `Object.keys` would list first, are not modelled. The form's keys are `given`, `family` and `telecom`.
- `parseOperationOutcome`: it only throws "not implemented", and nothing calls it.
- Out-of-order completion of overlapping searches (there is no debouncing). This is about concurrency, not the sequential logic.
- `console.log` calls.
- UpdatePatient.LoadFinish: a response whose body fails to parse rejects a promise nobody handles. The model leaves the state unchanged, so loading stays on; the unhandled rejection itself is not modelled.
- JSON `null`. A `null` member reads like an absent one, because `?.` stops on `null` as on `undefined`, so `None` covers it. What is left out is a `null` body and a `null` or non-object array entry. A `null` body throws at `res.link` (src/GetPatients.tsx:34) and at `resource.id` (src/CreatePatient.tsx:40). A bad array entry throws at `x.system`, `x.relation` or `bundleEntry.resource`. Every body and array entry in the model is an object of the right shape.
- The search table's other columns (id, joined given names, family name, birth date, phone) are read directly from the resource. They are not modelled beyond the gender column.

## Findings

| source | as written | input that shows it | evidently intended | confidence | as-written member | corrected member |
|---|---|---|---|---|---|---|
| src/GetPatients.tsx:62 | the search path built from user filters goes through `getResources`, which fetches any string containing `getpages` verbatim | family-name filter `getpages`: the request targets `Patient?family=getpages`, without the base URL | only paging links returned by the server skip the base URL | medium; not executed | GetPatients.SearchValueEscapesBase | GetPatients.SubmitSearchTargeted |
| src/services/FhirApi.tsx:43 | the PUT body has no `telecom`, and a FHIR PUT replaces the whole resource | update any patient whose phone is `5551234567`: reading the stored resource back gives phone `""` | the update keeps the phone the form shows and requires | medium; not executed | RoundTrip.UpdateRoundTrip | RoundTrip.UpdateKeepingPhoneRoundTrip |

Both as-written members stay in the model, because they are what the client
does. The corrected members sit next to them: `FhirApi.GetTarget` and
`FhirApi.ToWireUpdateKeepingPhone`.

=== FILE: create_patient.dfy ===
/** The create form: its initial record, input handling and the outcome of a submit. */
module CreatePatient {
  import opened Optional
  import opened Text
  import opened Fhir
  import opened Records
  import opened Http
  import opened FhirApi

  datatype CreateForm = CreateForm(error: string, isLoading: bool, patient: FlatPatient)

  /** Six empty fields and no `id`. */
  const Initial := CreateForm("", false, Blank(None))

  /** The values the gender select can deliver; its default "blank" option is disabled. */
  const GenderOptions := ["male", "female", "other", "unknown"]

  /** `handleInput`: only the named field of the patient changes. */
  function HandleInput(f: CreateForm, field: FormField, value: string): (r: CreateForm)
    ensures FieldValue(r.patient, field) == value
    ensures forall g :: g != field ==> FieldValue(r.patient, g) == FieldValue(f.patient, g)
    ensures r.patient.id == f.patient.id
    ensures r.(patient := f.patient) == f
  {
    f.(patient := WithField(f.patient, field, value))
  }

  /** A change event the form's controls can raise: the gender select only offers its options. */
  datatype InputEvent = InputEvent(field: FormField, value: string)

  predicate Selectable(e: InputEvent)
  {
    e.field == Gender ==> e.value in GenderOptions
  }

  function RunInputs(f: CreateForm, es: seq<InputEvent>): CreateForm
    decreases |es|
  {
    if |es| == 0 then f else RunInputs(HandleInput(f, es[0].field, es[0].value), es[1..])
  }

  /**
   * The gender field keeps its value until a gender event arrives, and from
   * then on holds one of the select's options.
   */
  lemma {:induction false} GenderAfterInputs(f: CreateForm, es: seq<InputEvent>)
    requires forall i :: 0 <= i < |es| ==> Selectable(es[i])
    ensures (forall i :: 0 <= i < |es| ==> es[i].field != Gender) ==>
              RunInputs(f, es).patient.gender == f.patient.gender
    ensures (exists i :: 0 <= i < |es| && es[i].field == Gender) ==>
              RunInputs(f, es).patient.gender in GenderOptions
    decreases |es|
  {
    if |es| > 0 {
      var f' := HandleInput(f, es[0].field, es[0].value);
      assert forall i :: 0 <= i < |es[1..]| ==> es[1..][i] == es[i + 1];
      GenderAfterInputs(f', es[1..]);
      if es[0].field == Gender {
        assert f'.patient.gender in GenderOptions;
        if !exists i :: 0 <= i < |es[1..]| && es[1..][i].field == Gender {
          assert RunInputs(f', es[1..]).patient.gender == f'.patient.gender;
        }
      } else {
        assert f'.patient.gender == f.patient.gender;
        if exists i :: 0 <= i < |es| && es[i].field == Gender {
          var i :| 0 <= i < |es| && es[i].field == Gender;
          assert es[1..][i - 1].field == Gender;
        }
      }
    }
  }

  /** Neither the empty string nor the disabled "blank" placeholder is a selectable option. */
  lemma PlaceholderNotAnOption()
    ensures "" !in GenderOptions && "blank" !in GenderOptions
  {
    assert "blank"[0] == 'b';
    assert GenderOptions[0][0] == 'm' && GenderOptions[1][0] == 'f';
    assert GenderOptions[2][0] == 'o' && GenderOptions[3][0] == 'u';
  }

  /** On the create form, gender stays `""` until the user picks an option, and is never "blank". */
  lemma GenderStaysBlankUntilPicked(es: seq<InputEvent>)
    requires forall i :: 0 <= i < |es| ==> Selectable(es[i])
    ensures RunInputs(Initial, es).patient.gender == "" <==> forall i :: 0 <= i < |es| ==> es[i].field != Gender
    ensures RunInputs(Initial, es).patient.gender != "blank"
  {
    GenderAfterInputs(Initial, es);
    PlaceholderNotAnOption();
  }

  /** Start of `handleSubmit`: loading on, POST of the current fields. */
  function SubmitBegin(f: CreateForm, c: Client): (r: (CreateForm, Request))
    ensures r.0 == f.(isLoading := true)
    ensures r.1.verb == POST && r.1.url == CollectionUrl(c, PatientType)
    ensures r.1.contentType == Some(JsonContentType)
    ensures r.1.body == Some(ToWireCreate(f.patient))
  {
    (f.(isLoading := true), PostResource(c, PatientType, f.patient))
  }

  /** `${resource.id}`: a missing id renders as the text "undefined". */
  function IdText(id: Option<string>): string
  {
    id.GetOr("undefined")
  }

  const PatientRoute := "/patient/"

  /**
   * End of `handleSubmit`, returning the state and the route navigated to,
   * if any: success navigates to the created patient; any failure stores its
   * message, does not navigate and leaves the fields alone. Loading is off
   * either way.
   */
  function SubmitFinish(f: CreateForm, o: Settled<Patient>): (r: (CreateForm, Option<string>))
    ensures !r.0.isLoading && r.0.patient == f.patient
    ensures r.1.Some? <==> Succeeded(o)
    ensures Succeeded(o) ==> r.1.value == PatientRoute + IdText(o.response.body.value.id) && r.0.error == f.error
    ensures !Succeeded(o) ==> r.0.error == FailureMessage(o, "")
    ensures o.Fulfilled? && !o.response.ok ==>
      r.0.error == RequestFailedMessage(o.response.status, o.response.statusText)
      && Contains(r.0.error, Decimal(o.response.status))
  {
    if Succeeded(o) then (f.(isLoading := false), Some(PatientRoute + IdText(o.response.body.value.id)))
    else (f.(error := FailureMessage(o, ""), isLoading := false), None)
  }
}

=== FILE: fhir.dfy ===
/**
 * The parts of the HL7 FHIR R4 resources the client reads and writes, as
 * they arrive in JSON: every member except `resourceType` may be absent.
 */
module Fhir {
  import opened Optional

  /** `HumanName`: `family` and the ordered `given` names. */
  datatype HumanName = HumanName(family: Option<string>, given: Option<seq<string>>)

  /** `ContactPoint`: a channel (`system`) and its `value`. */
  datatype ContactPoint = ContactPoint(system: Option<string>, value: Option<string>)

  /** The `Patient` resource, restricted to the members the forms touch. */
  datatype Patient = Patient(
    resourceType: string,
    id: Option<string>,
    name: Option<seq<HumanName>>,
    telecom: Option<seq<ContactPoint>>,
    gender: Option<string>,
    birthDate: Option<string>)

  /** `Bundle.link`: a navigation relation (`next`, `previous`, ...) and its URL. */
  datatype BundleLink = BundleLink(relation: Option<string>, url: Option<string>)

  /** `Bundle.entry`: one wrapped resource. */
  datatype BundleEntry = BundleEntry(resource: Option<Patient>)

  /** A search-result `Bundle`. Any other parsed body has neither list. */
  datatype Bundle = Bundle(link: Option<seq<BundleLink>>, entry: Option<seq<BundleEntry>>)

  const PatientType := "Patient"
  const PhoneSystem := "phone"

  /** `x.system === 'phone'` */
  predicate IsPhone(cp: ContactPoint)
  {
    cp.system == Some(PhoneSystem)
  }
}

=== FILE: fhir_api.dfy ===
/**
 * The FHIR REST client: the base URL it is built with, the request each
 * operation issues, and the Patient payloads it builds from the flat record.
 * A request is returned as data instead of being sent.
 */
module FhirApi {
  import opened Optional
  import opened Text
  import opened Fhir
  import opened Records

  const DefaultBaseUrl := "localhost:8080/fhir"
  const JsonContentType := "application/json"
  /** Paging links returned by the server carry this marker and are fetched as they are. */
  const PageMarker := "getpages"

  datatype Client = Client(baseUrl: string)

  datatype Method = GET | POST | PUT | DELETE

  /** An HTTP request: verb, target, `Content-Type` header if any, JSON body if any. */
  datatype Request = Request(verb: Method, url: string, contentType: Option<string>, body: Option<Patient>)

  /** `new FhirApi(baseUrl)`: an absent or empty argument falls back to the local server. */
  function NewClient(baseUrl: Option<string>): (c: Client)
    ensures c.baseUrl != ""
    ensures baseUrl.Some? && baseUrl.value != "" ==> c.baseUrl == baseUrl.value
    ensures baseUrl.None? || baseUrl.value == "" ==> c.baseUrl == DefaultBaseUrl
  {
    Client(if baseUrl.Some? && baseUrl.value != "" then baseUrl.value else DefaultBaseUrl)
  }

  /** `base/type`: the collection a resource type lives in. */
  function CollectionUrl(c: Client, resourceType: string): string
  {
    c.baseUrl + "/" + resourceType
  }

  /** `base/type/id`: one resource instance. */
  function InstanceUrl(c: Client, resourceType: string, id: string): string
  {
    CollectionUrl(c, resourceType) + "/" + id
  }

  /** `getResources`: a paging URL is fetched verbatim, anything else is relative to the base. */
  function GetResources(c: Client, searchUrl: string): (r: Request)
    ensures r.verb == GET && r.contentType.None? && r.body.None?
    ensures Contains(searchUrl, PageMarker) ==> r.url == searchUrl
    ensures !Contains(searchUrl, PageMarker) ==> r.url == c.baseUrl + "/" + searchUrl
  {
    IncludesIff(searchUrl, PageMarker);
    var url := if Includes(searchUrl, PageMarker) then searchUrl else c.baseUrl + "/" + searchUrl;
    Request(GET, url, None, None)
  }

  /** Where a search goes: a path relative to the base, or a paging link the server returned. */
  datatype SearchTarget = Relative(path: string) | PageLink(url: string)

  /**
   * `getResources` with the fetch mode carried by the target instead of
   * sniffed from its text: a relative path always lands under the base URL,
   * whatever it contains.
   */
  function GetTarget(c: Client, target: SearchTarget): (r: Request)
    ensures r.verb == GET && r.contentType.None? && r.body.None?
    ensures target.Relative? ==> r.url == c.baseUrl + "/" + target.path
    ensures target.PageLink? ==> r.url == target.url
    ensures target.PageLink? && Contains(target.url, PageMarker) ==> r == GetResources(c, target.url)
  {
    match target
    case Relative(path) => Request(GET, c.baseUrl + "/" + path, None, None)
    case PageLink(url) => Request(GET, url, None, None)
  }

  /** `getResourceById`: GET the instance, with no content type and no body. */
  function GetResourceById(c: Client, resourceType: string, id: string): (r: Request)
    ensures r.verb == GET && r.url == InstanceUrl(c, resourceType, id)
    ensures r.contentType.None? && r.body.None?
  {
    Request(GET, InstanceUrl(c, resourceType, id), None, None)
  }

  /** `[givenName].concat(middleNames.split(' '))` */
  function GivenNames(p: FlatPatient): (given: seq<string>)
    ensures |given| == 2 + Count(p.middleNames, ' ')
    ensures given[0] == p.givenName
    ensures given[1..] == Split(p.middleNames, ' ')
  {
    SplitLength(p.middleNames, ' ');
    assert ([p.givenName] + Split(p.middleNames, ' '))[1..] == Split(p.middleNames, ' ');
    [p.givenName] + Split(p.middleNames, ' ')
  }

  /** The single `name` entry both payloads carry. */
  function NameOf(p: FlatPatient): seq<HumanName>
  {
    [HumanName(Some(p.familyName), Some(GivenNames(p)))]
  }

  /** The body of `postResource`: no `id`, one name, one phone contact point. */
  function ToWireCreate(p: FlatPatient): (w: Patient)
    ensures w.resourceType == PatientType && w.id.None?
    ensures w.name == Some(NameOf(p))
    ensures w.telecom == Some([ContactPoint(Some(PhoneSystem), Some(p.phoneNumber))])
    ensures w.gender == Some(p.gender) && w.birthDate == Some(p.birthDate)
  {
    Patient(PatientType, None, Some(NameOf(p)), Some([ContactPoint(Some(PhoneSystem), Some(p.phoneNumber))]),
            Some(p.gender), Some(p.birthDate))
  }

  /** The body of `putResource`: the supplied `id`, the same name, and no `telecom` at all. */
  function ToWireUpdate(p: FlatPatient, id: string): (w: Patient)
    ensures w.resourceType == PatientType && w.id == Some(id)
    ensures w.name == ToWireCreate(p).name
    ensures w.telecom.None?
    ensures w.gender == Some(p.gender) && w.birthDate == Some(p.birthDate)
  {
    Patient(PatientType, Some(id), Some(NameOf(p)), None, Some(p.gender), Some(p.birthDate))
  }

  /**
   * An update payload that also carries the phone contact point, so that a
   * full-replacement PUT does not drop it.
   */
  function ToWireUpdateKeepingPhone(p: FlatPatient, id: string): (w: Patient)
    ensures w == ToWireCreate(p).(id := Some(id))
    ensures w.telecom == Some([ContactPoint(Some(PhoneSystem), Some(p.phoneNumber))])
  {
    Patient(PatientType, Some(id), Some(NameOf(p)), Some([ContactPoint(Some(PhoneSystem), Some(p.phoneNumber))]),
            Some(p.gender), Some(p.birthDate))
  }

  /** `postResource`: POST the create payload to the collection. */
  function PostResource(c: Client, resourceType: string, p: FlatPatient): (r: Request)
    ensures r.verb == POST && r.url == CollectionUrl(c, resourceType)
    ensures r.contentType == Some(JsonContentType)
    ensures r.body == Some(ToWireCreate(p))
  {
    Request(POST, CollectionUrl(c, resourceType), Some(JsonContentType), Some(ToWireCreate(p)))
  }

  /** `putResource`: PUT the update payload to the instance. */
  function PutResource(c: Client, resourceType: string, id: string, p: FlatPatient): (r: Request)
    ensures r.verb == PUT && r.url == InstanceUrl(c, resourceType, id)
    ensures r.contentType == Some(JsonContentType)
    ensures r.body == Some(ToWireUpdate(p, id))
  {
    Request(PUT, InstanceUrl(c, resourceType, id), Some(JsonContentType), Some(ToWireUpdate(p, id)))
  }

  /** `deleteResource`: DELETE the instance, JSON content type, no body. */
  function DeleteResource(c: Client, resourceType: string, id: string): (r: Request)
    ensures r.verb == DELETE && r.url == InstanceUrl(c, resourceType, id)
    ensures r.contentType == Some(JsonContentType) && r.body.None?
  {
    Request(DELETE, InstanceUrl(c, resourceType, id), Some(JsonContentType), None)
  }

  /**
   * Get-by-id, PUT and DELETE all target the one instance URL, which is the
   * POST target plus `/id`; and the part after the base URL splits back into
   * the resource type and id when neither holds a `/`.
   */
  lemma UrlShapes(c: Client, resourceType: string, id: string, p: FlatPatient)
    requires '/' !in resourceType && '/' !in id
    ensures GetResourceById(c, resourceType, id).url == PutResource(c, resourceType, id, p).url
    ensures DeleteResource(c, resourceType, id).url == InstanceUrl(c, resourceType, id)
    ensures InstanceUrl(c, resourceType, id) == PostResource(c, resourceType, p).url + "/" + id
    ensures Split(InstanceUrl(c, resourceType, id)[|c.baseUrl|..], '/') == ["", resourceType, id]
  {
    var rest := InstanceUrl(c, resourceType, id)[|c.baseUrl|..];
    assert rest == "" + "/" + resourceType + "/" + id;
    var parts := ["", resourceType, id];
    assert parts[1..][1..] == [id];
    assert Join(parts[1..], '/') == resourceType + "/" + id;
    assert Join(parts, '/') == "" + "/" + (resourceType + "/" + id);
    assert rest == Join(parts, '/');
    assert forall i :: 0 <= i < |parts| ==> '/' !in parts[i];
    SplitJoin(parts, '/');
  }
}

=== FILE: get_patients.dfy ===
/**
 * The search/list view: its search parameters, the query string it builds,
 * how it reads a search-result Bundle, paging, and the table's gender column.
 */
module GetPatients {
  import opened Optional
  import opened Text
  import opened Seqs
  import opened Fhir
  import opened Http
  import opened FhirApi

  /** Search parameters in key insertion order, as `Object.keys` lists them. */
  type Params = seq<(string, string)>

  datatype SearchView = SearchView(
    isLoading: bool,
    error: string,
    previous: Option<string>,
    next: Option<string>,
    searchParams: Params,
    patients: Option<seq<Option<Patient>>>)

  /** The initial state: empty links, no parameters, an empty patient list. */
  const Initial := SearchView(false, "", Some(""), Some(""), [], Some([]))

  const InitialSearch := "Patient?_count=10"
  const SearchFallbackError := "Unable to GET /Patient"
  const NextRelation := "next"
  const PreviousRelation := "previous"

  /** `getPatients(searchUrl)` up to the request: loading on, GET issued. */
  function FetchBegin(v: SearchView, c: Client, searchUrl: string): (r: (SearchView, Request))
    ensures r.0 == v.(isLoading := true)
    ensures r.1 == GetResources(c, searchUrl)
  {
    (v.(isLoading := true), GetResources(c, searchUrl))
  }

  /** The mount effect asks for the first ten patients, relative to the base URL. */
  function InitialLoad(c: Client): (r: (SearchView, Request))
    ensures r.0.isLoading
    ensures r.1.verb == GET && r.1.url == c.baseUrl + "/" + InitialSearch
  {
    NotContainsWithoutHead(InitialSearch, PageMarker);
    FetchBegin(Initial, c, InitialSearch)
  }

  function RelationIs(rel: string): BundleLink -> bool
  {
    (l: BundleLink) => l.relation == Some(rel)
  }

  /** `res.link?.filter(x => x.relation === rel).at(0)?.url` */
  function LinkUrl(links: Option<seq<BundleLink>>, rel: string): (u: Option<string>)
    ensures links.None? ==> u.None?
    ensures links.Some? && (forall i :: 0 <= i < |links.value| ==> links.value[i].relation != Some(rel))
      ==> u.None?
    ensures forall i :: links.Some? && FirstMatchAt(links.value, RelationIs(rel), i) ==>
              u == links.value[i].url
  {
    match links
    case None => None
    case Some(ls) =>
      FirstOfFilter(ls, RelationIs(rel));
      match First(Filter(ls, RelationIs(rel)))
      case None => None
      case Some(l) => l.url
  }

  function EntryResource(e: BundleEntry): Option<Patient>
  {
    e.resource
  }

  /**
   * `getPatients` once the fetch settles. The status is not inspected: any
   * parsed body is read as a Bundle. The paging links and the patient list
   * are replaced; a failure stores its message and keeps them.
   */
  function FetchFinish(v: SearchView, o: Settled<Bundle>): (r: SearchView)
    ensures !r.isLoading && r.searchParams == v.searchParams
    ensures o.Fulfilled? && o.response.body.Parsed? ==>
      var b := o.response.body.value;
      && r.next == LinkUrl(b.link, NextRelation)
      && r.previous == LinkUrl(b.link, PreviousRelation)
      && (b.entry.None? <==> r.patients.None?)
      && (b.entry.Some? ==>
            && |r.patients.value| == |b.entry.value|
            && forall i :: 0 <= i < |b.entry.value| ==> r.patients.value[i] == b.entry.value[i].resource)
      && r.error == v.error
    ensures o.Rejected? ==> r == v.(isLoading := false, error := CaughtMessage(o.reason, SearchFallbackError))
    ensures o.Fulfilled? && o.response.body.ParseError? ==>
      r == v.(isLoading := false, error := CaughtMessage(o.response.body.thrown, SearchFallbackError))
  {
    match o
    case Rejected(t) => v.(isLoading := false, error := CaughtMessage(t, SearchFallbackError))
    case Fulfilled(resp) =>
      match resp.body
      case ParseError(t) => v.(isLoading := false, error := CaughtMessage(t, SearchFallbackError))
      case Parsed(b) =>
        v.(previous := LinkUrl(b.link, PreviousRelation),
           next := LinkUrl(b.link, NextRelation),
           patients := if b.entry.Some? then Some(Map(b.entry.value, EntryResource)) else None,
           isLoading := false)
  }

  /** A JavaScript string value is truthy when it is present and non-empty. */
  predicate Truthy(s: Option<string>)
  {
    s.Some? && s.value != ""
  }

  /**
   * What rendering produces. `RenderThrows` stands for the `TypeError` raised
   * when a table row reads `patient.id` of an entry without a resource.
   */
  datatype PatientsView =
    | NoPatientsFound
    | RenderThrows
    | PatientTable(rows: seq<Patient>, pagingShown: bool, previousDisabled: bool, nextDisabled: bool)

  /**
   * What the view renders: the "No patients found" message when there is no
   * patient list; a throw when some entry of the list has no resource;
   * otherwise the table, with paging buttons only for a non-empty list, each
   * disabled when its link is not truthy.
   */
  function Render(v: SearchView): (r: PatientsView)
    ensures r.NoPatientsFound? <==> v.patients.None?
    ensures r.RenderThrows? <==> v.patients.Some? && None in v.patients.value
    ensures r.PatientTable? ==> |r.rows| == |v.patients.value| && (r.pagingShown <==> |r.rows| > 0)
    ensures r.PatientTable? ==> forall i :: 0 <= i < |r.rows| ==> v.patients.value[i] == Some(r.rows[i])
    ensures r.PatientTable? ==> (r.previousDisabled <==> !Truthy(v.previous)) && (r.nextDisabled <==> !Truthy(v.next))
  {
    match v.patients
    case None => NoPatientsFound
    case Some(ps) =>
      if None in ps then RenderThrows
      else
        var rows := Map(ps, (p: Option<Patient>) => p.GetOr(Patient("", None, None, None, None, None)));
        assert forall i :: 0 <= i < |ps| ==> ps[i] == Some(rows[i]) by {
          forall i | 0 <= i < |ps| ensures ps[i] == Some(rows[i]) {
            assert ps[i] != None;
          }
        }
        PatientTable(rows, |ps| > 0, !Truthy(v.previous), !Truthy(v.next))
  }

  /** A search result holding an entry without a resource cannot be rendered. */
  lemma EntryWithoutResourceThrows(v: SearchView, links: Option<seq<BundleLink>>, es: seq<BundleEntry>, i: nat)
    requires i < |es| && es[i].resource.None?
    ensures Render(FetchFinish(v, Fulfilled(Response(true, 200, "OK", Parsed(Bundle(links, Some(es))))))).RenderThrows?
  {
    assert Map(es, EntryResource)[i] == None;
  }

  /** Following a paging link: the Next (or Previous) button fetches the stored link. */
  function FollowLink(v: SearchView, c: Client, link: Option<string>): (r: (SearchView, Request))
    requires Truthy(link)
    ensures r.0 == v.(isLoading := true) && r.1 == GetResources(c, link.value)
    ensures Contains(link.value, PageMarker) ==> r.1.url == link.value
    ensures !Contains(link.value, PageMarker) ==> r.1.url == c.baseUrl + "/" + link.value
  {
    FetchBegin(v, c, link.value)
  }

  /**
   * A search result with only a `previous` link enables backward paging and
   * disables forward paging; following that link fetches it as it is when it
   * is a server paging URL, and under the base URL otherwise.
   */
  lemma OnlyPreviousLink(v: SearchView, c: Client, u: string, ps: seq<Patient>)
    requires u != "" && |ps| > 0
    ensures var es := Map(ps, (p: Patient) => BundleEntry(Some(p)));
            var r := FetchFinish(v, Fulfilled(Response(true, 200, "OK", Parsed(Bundle(Some([BundleLink(Some(PreviousRelation), Some(u))]), Some(es))))));
            && r.next.None? && r.previous == Some(u)
            && Render(r) == PatientTable(ps, true, false, true)
            && (Contains(u, PageMarker) ==> FollowLink(r, c, r.previous).1.url == u)
            && (!Contains(u, PageMarker) ==> FollowLink(r, c, r.previous).1.url == c.baseUrl + "/" + u)
  {
    var links := [BundleLink(Some(PreviousRelation), Some(u))];
    assert FirstMatchAt(links, RelationIs(PreviousRelation), 0);
    assert !RelationIs(NextRelation)(links[0]);
    var es := Map(ps, (p: Patient) => BundleEntry(Some(p)));
    WrappedEntries(ps);
    TableOfResources(FetchFinish(v, Fulfilled(Response(true, 200, "OK", Parsed(Bundle(Some(links), Some(es)))))), ps);
  }

  /** Entries that each wrap a patient yield exactly those patients. */
  lemma WrappedEntries(ps: seq<Patient>)
    ensures var rs := Map(Map(ps, (p: Patient) => BundleEntry(Some(p))), EntryResource);
            |rs| == |ps| && forall i :: 0 <= i < |ps| ==> rs[i] == Some(ps[i])
  {
  }

  /** A list in which every entry has a resource renders as the table of those resources. */
  lemma TableOfResources(v: SearchView, ps: seq<Patient>)
    requires v.patients.Some? && |v.patients.value| == |ps|
    requires forall i :: 0 <= i < |ps| ==> v.patients.value[i] == Some(ps[i])
    ensures Render(v) == PatientTable(ps, |ps| > 0, !Truthy(v.previous), !Truthy(v.next))
  {
    assert None !in v.patients.value by {
      forall i | 0 <= i < |ps| ensures v.patients.value[i] != None {
      }
    }
    var t := Render(v);
    assert t.rows == ps;
  }

  /** `handleInput`: the named key takes the value in place, or is appended if new. */
  function SetParam(ps: Params, key: string, value: string): (r: Params)
    ensures |r| == |ps| || r == ps + [(key, value)]
    ensures forall i :: 0 <= i < |ps| ==> r[i].0 == ps[i].0 && r[i].1 == (if ps[i].0 == key then value else ps[i].1)
    ensures (forall i :: 0 <= i < |ps| ==> ps[i].0 != key) ==> r == ps + [(key, value)]
    ensures exists i :: 0 <= i < |r| && r[i] == (key, value)
    ensures (exists i :: 0 <= i < |ps| && ps[i].0 == key) ==> |r| == |ps|
  {
    if exists i :: 0 <= i < |ps| && ps[i].0 == key then
      var r := Map(ps, (p: (string, string)) => if p.0 == key then (key, value) else p);
      assert exists i :: 0 <= i < |r| && r[i] == (key, value);
      r
    else
      assert (ps + [(key, value)])[|ps|] == (key, value);
      ps + [(key, value)]
  }

  /** `Object.keys` of a parameter list: its keys in order. */
  function Keys(ps: Params): seq<string>
  {
    Map(ps, (p: (string, string)) => p.0)
  }

  /** No key appears twice, as in a JavaScript object. */
  ghost predicate UniqueKeys(ps: Params)
  {
    forall i, j :: 0 <= i < j < |ps| ==> ps[i].0 != ps[j].0
  }

  /** Setting a parameter keeps keys unique and keeps every existing key where it was. */
  lemma SetParamKeepsOrder(ps: Params, key: string, value: string)
    requires UniqueKeys(ps)
    ensures UniqueKeys(SetParam(ps, key, value))
    ensures Keys(SetParam(ps, key, value))[..|ps|] == Keys(ps)
  {
    var r := SetParam(ps, key, value);
    assert forall i :: 0 <= i < |ps| ==> r[i].0 == ps[i].0;
    assert Keys(r)[..|ps|] == Keys(ps);
  }

  predicate HasValue(p: (string, string))
  {
    p.1 != ""
  }

  /** `${key}=${encodeURIComponent(value)}`, for the given encoder. */
  function Piece(encode: string -> string): ((string, string)) -> string
  {
    (p: (string, string)) => p.0 + "=" + encode(p.1)
  }

  /** The query fragments: one per parameter with a non-empty value, in key order. */
  function Pieces(ps: Params, encode: string -> string): seq<string>
  {
    Map(Filter(ps, HasValue), Piece(encode))
  }

  /** The `keyValueStr` of `handleSubmit`: the fragments joined by `&`. */
  function Query(ps: Params, encode: string -> string): string
  {
    Join(Pieces(ps, encode), '&')
  }

  /** The query string is empty exactly when every parameter value is empty. */
  lemma QueryEmptyIff(ps: Params, encode: string -> string)
    ensures Query(ps, encode) == "" <==> forall i :: 0 <= i < |ps| ==> ps[i].1 == ""
  {
    FirstOfFilter(ps, HasValue);
    var pieces := Pieces(ps, encode);
    if |pieces| > 0 {
      assert '=' in pieces[0];
      JoinStartsWithFirst(pieces, '&');
    }
  }

  /** A joined list starts with its first element. */
  lemma JoinStartsWithFirst(parts: seq<string>, sep: char)
    requires |parts| > 0
    ensures Join(parts, sep)[..|parts[0]|] == parts[0]
  {
  }

  /**
   * The query string splits on `&` back into its fragments when no key and no
   * encoded value contains `&`.
   */
  lemma QuerySplitsIntoPieces(ps: Params, encode: string -> string)
    requires exists i :: 0 <= i < |ps| && ps[i].1 != ""
    requires forall i :: 0 <= i < |ps| ==> '&' !in ps[i].0 && '&' !in encode(ps[i].1)
    ensures Split(Query(ps, encode), '&') == Pieces(ps, encode)
  {
    FirstOfFilter(ps, HasValue);
    var kept := Filter(ps, HasValue);
    var pieces := Pieces(ps, encode);
    forall i | 0 <= i < |pieces|
      ensures '&' !in pieces[i]
    {
      assert kept[i] in kept;
      assert pieces[i] == kept[i].0 + "=" + encode(kept[i].1);
    }
    SplitJoin(pieces, '&');
  }

  /** `Patient`, with `?query` only when the query is non-empty. */
  function SearchPath(query: string): (p: string)
    ensures query == "" ==> p == PatientType
    ensures query != "" ==> p == PatientType + "?" + query
  {
    PatientType + (if query == "" then "" else "?" + query)
  }

  /** `handleSubmit`: fetch the search path built from the current parameters. */
  function SubmitSearch(v: SearchView, c: Client, encode: string -> string): (r: (SearchView, Request))
    ensures r.0 == v.(isLoading := true)
    ensures r.1 == GetResources(c, SearchPath(Query(v.searchParams, encode)))
    ensures (forall i :: 0 <= i < |v.searchParams| ==> v.searchParams[i].1 == "") ==>
              r.1.url == c.baseUrl + "/" + PatientType
    ensures var q := Query(v.searchParams, encode);
            q != "" && !Contains(PatientType + "?" + q, PageMarker) ==>
              r.1.url == c.baseUrl + "/" + PatientType + "?" + q
    ensures var q := Query(v.searchParams, encode);
            Contains(q, PageMarker) ==> r.1.url == PatientType + "?" + q
  {
    QueryEmptyIff(v.searchParams, encode);
    NotContainsWithoutHead(PatientType, PageMarker);
    var q := Query(v.searchParams, encode);
    assert Contains(q, PageMarker) ==> Contains(PatientType + "?" + q, PageMarker) by {
      if Contains(q, PageMarker) {
        ContainsInSuffix(PatientType + "?", q, PageMarker);
      }
    }
    FetchBegin(v, c, SearchPath(Query(v.searchParams, encode)))
  }

  /**
   * As written, a search value that spells the paging marker turns the search
   * path into a "paging link", and the request leaves the base URL behind.
   */
  lemma SearchValueEscapesBase(c: Client, encode: string -> string)
    requires encode(PageMarker) == PageMarker
    requires c.baseUrl != ""
    ensures var v := Initial.(searchParams := [("family", PageMarker)]);
            SubmitSearch(v, c, encode).1.url == "Patient?family=getpages"
  {
    var ps := [("family", PageMarker)];
    assert ps[1..] == [];
    assert Filter(ps, HasValue) == [ps[0]] + Filter(ps[1..], HasValue) == ps;
    assert Piece(encode)(ps[0]) == "family=getpages";
    assert Map(ps, Piece(encode)) == [Piece(encode)(ps[0])] + Map(ps[1..], Piece(encode));
    assert Pieces(ps, encode) == ["family=getpages"];
    var path := SearchPath(Query(ps, encode));
    assert path == "Patient?family=getpages";
    assert path[15..23] == PageMarker;
    assert OccursAt(path, PageMarker, 15);
  }

  /** `handleSubmit` with the target tagged as relative: the search always stays under the base URL. */
  function SubmitSearchTargeted(v: SearchView, c: Client, encode: string -> string): (r: (SearchView, Request))
    ensures r.0 == v.(isLoading := true)
    ensures r.1.verb == GET
    ensures r.1.url == c.baseUrl + "/" + SearchPath(Query(v.searchParams, encode))
  {
    (v.(isLoading := true), GetTarget(c, Relative(SearchPath(Query(v.searchParams, encode)))))
  }

  /** The gender column: first character upper-cased; nothing for an absent or empty gender. */
  function GenderDisplay(g: Option<string>): (d: Option<string>)
    ensures d.None? <==> !Truthy(g)
    ensures d.Some? ==> |d.value| == |g.value| && d.value[0] == UpperChar(g.value[0]) && d.value[1..] == g.value[1..]
  {
    if Truthy(g) then Some(Capitalise(g.value)) else None
  }

  /** A gender that already starts with anything but a lower-case letter displays unchanged. */
  lemma GenderDisplayKeepsCapitalised(g: string)
    requires g != "" && !('a' <= g[0] <= 'z')
    ensures GenderDisplay(Some(g)) == Some(g)
  {
    assert [g[0]] + g[1..] == g;
  }

  /** The four administrative gender codes display capitalised. */
  lemma GenderDisplayCodes()
    ensures GenderDisplay(Some("male")) == Some("Male")
    ensures GenderDisplay(Some("female")) == Some("Female")
    ensures GenderDisplay(Some("other")) == Some("Other")
    ensures GenderDisplay(Some("unknown")) == Some("Unknown")
  {
    assert UpperChar('m') == 'M' && UpperChar('f') == 'F' && UpperChar('o') == 'O' && UpperChar('u') == 'U';
    assert "male"[1..] == "ale" && "female"[1..] == "emale" && "other"[1..] == "ther" && "unknown"[1..] == "nknown";
    assert Capitalise("male") == ['M'] + "ale" == "Male";
    assert Truthy(Some("male"));
    assert Capitalise("female") == ['F'] + "emale" == "Female";
    assert Truthy(Some("female"));
    assert Capitalise("other") == ['O'] + "ther" == "Other";
    assert Truthy(Some("other"));
    assert Capitalise("unknown") == ['U'] + "nknown" == "Unknown";
    assert Truthy(Some("unknown"));
  }
}

=== FILE: http.dfy ===
/**
 * What a `fetch` call settles to, and the error messages the forms derive
 * from it. Nothing here performs I/O: a response is an input.
 */
module Http {
  import opened Text

  /** A thrown value: an `Error` with its `message`, or anything else. */
  datatype Thrown = ErrorObject(message: string) | NonError

  /** The outcome of `response.json()`: the parsed value, or what it threw. */
  datatype Body<B> = Parsed(value: B) | ParseError(thrown: Thrown)

  datatype Response<B> = Response(ok: bool, status: nat, statusText: string, body: Body<B>)

  /** A settled `fetch`: a response, or a rejection (network failure). */
  datatype Settled<B> = Fulfilled(response: Response<B>) | Rejected(reason: Thrown)

  /** The message a `catch` block stores: the error's message, or `fallback` for non-`Error` values. */
  function CaughtMessage(t: Thrown, fallback: string): string
  {
    match t
    case ErrorObject(m) => m
    case NonError => fallback
  }

  const RequestFailedPrefix := "Request failed: "

  /** `Request failed: ${response.status} ${response.statusText}` */
  function RequestFailedMessage(status: nat, statusText: string): string
  {
    RequestFailedPrefix + Decimal(status) + " " + statusText
  }

  /** The request completed, reported `ok`, and its JSON body parsed. */
  predicate Succeeded<B>(o: Settled<B>)
  {
    o.Fulfilled? && o.response.ok && o.response.body.Parsed?
  }

  /**
   * The message the forms' `try`/`catch` stores for a request that did not
   * succeed: a non-`ok` status becomes a thrown `Error` with the request-failed
   * text; a rejection or an unparseable body is caught as it is.
   */
  function FailureMessage<B>(o: Settled<B>, fallback: string): (m: string)
    requires !Succeeded(o)
    ensures o.Fulfilled? && !o.response.ok ==> Contains(m, Decimal(o.response.status))
  {
    match o
    case Rejected(t) => CaughtMessage(t, fallback)
    case Fulfilled(r) =>
      if !r.ok then
        ContainsInfix(RequestFailedPrefix, Decimal(r.status), " " + r.statusText);
        assert RequestFailedMessage(r.status, r.statusText)
            == RequestFailedPrefix + Decimal(r.status) + (" " + r.statusText);
        RequestFailedMessage(r.status, r.statusText)
      else CaughtMessage(r.body.thrown, fallback)
  }

  /** Splitting at a first space that neither prefix contains. */
  lemma SpaceSeparated(a: string, b: string, c: string, d: string)
    requires ' ' !in a && ' ' !in c
    requires a + " " + b == c + " " + d
    ensures a == c && b == d
  {
    var x := a + " " + b;
    IndexAfterFreePrefix(a, ' ', b);
    IndexAfterFreePrefix(c, ' ', d);
    assert a == x[..|a|] == c;
    assert b == x[|a| + 1..] == d;
  }

  /** The request-failed message determines the status and status text it was built from. */
  lemma RequestFailedInjective(s1: nat, t1: string, s2: nat, t2: string)
    requires RequestFailedMessage(s1, t1) == RequestFailedMessage(s2, t2)
    ensures s1 == s2 && t1 == t2
  {
    var m1 := RequestFailedMessage(s1, t1);
    var m2 := RequestFailedMessage(s2, t2);
    var n := |RequestFailedPrefix|;
    assert m1[n..] == Decimal(s1) + " " + t1;
    assert m2[n..] == Decimal(s2) + " " + t2;
    SpaceSeparated(Decimal(s1), t1, Decimal(s2), t2);
    DecimalRoundTrip(s1);
    DecimalRoundTrip(s2);
  }
}

=== FILE: optional.dfy ===
/** An optional value: JavaScript's `undefined` on one side, a present value on the other. */
module Optional {

  datatype Option<+T> = None | Some(value: T) {

    /** The value if present, else `default` (the `x || ''` idiom on strings). */
    function GetOr(default: T): T {
      match this
      case Some(v) => v
      case None => default
    }
  }
}

=== FILE: records.dfy ===
/** The flat, form-friendly patient record shared by the create and update forms. */
module Records {
  import opened Optional

  /** The six editable inputs; each form control's `name` attribute is one of these. */
  datatype FormField = GivenName | MiddleNames | FamilyName | Gender | PhoneNumber | BirthDate

  /**
   * The flat record. The create form has no `id` at all; the update form
   * carries the loaded resource's `id`, which is `undefined` when the
   * resource had none.
   */
  datatype FlatPatient = FlatPatient(
    id: Option<string>,
    givenName: string,
    middleNames: string,
    familyName: string,
    gender: string,
    phoneNumber: string,
    birthDate: string)

  /** A record whose six fields are all `""`. */
  function Blank(id: Option<string>): FlatPatient
  {
    FlatPatient(id, "", "", "", "", "", "")
  }

  function FieldValue(p: FlatPatient, f: FormField): string
  {
    match f
    case GivenName => p.givenName
    case MiddleNames => p.middleNames
    case FamilyName => p.familyName
    case Gender => p.gender
    case PhoneNumber => p.phoneNumber
    case BirthDate => p.birthDate
  }

  /** `{ ...patient, [name]: value }`: the named field takes the value, nothing else moves. */
  function WithField(p: FlatPatient, f: FormField, v: string): (q: FlatPatient)
    ensures FieldValue(q, f) == v
    ensures forall g :: g != f ==> FieldValue(q, g) == FieldValue(p, g)
    ensures q.id == p.id
  {
    match f
    case GivenName => p.(givenName := v)
    case MiddleNames => p.(middleNames := v)
    case FamilyName => p.(familyName := v)
    case Gender => p.(gender := v)
    case PhoneNumber => p.(phoneNumber := v)
    case BirthDate => p.(birthDate := v)
  }
}

=== FILE: round_trip.dfy ===
/**
 * The two mapping directions composed: what survives a create or an update
 * payload being read back by the update form, and which wire resources
 * survive being read into the form and posted again.
 */
module RoundTrip {
  import opened Optional
  import opened Text
  import opened Seqs
  import opened Fhir
  import opened Records
  import opened FhirApi
  import opened UpdatePatient

  /** Reading back a create payload reproduces every form field exactly; there is no id. */
  lemma CreateRoundTrip(p: FlatPatient)
    ensures FromWire(ToWireCreate(p)) == p.(id := None)
  {
    var w := ToWireCreate(p);
    assert FirstGiven(w) == GivenNames(p);
    JoinSplit(p.middleNames, ' ');
    var phones := [ContactPoint(Some(PhoneSystem), Some(p.phoneNumber))];
    assert FirstMatchAt(phones, IsPhone, 0);
  }

  /** Reading back an update payload reproduces every field but the phone, which comes back `""`. */
  lemma UpdateRoundTrip(p: FlatPatient, id: string)
    ensures FromWire(ToWireUpdate(p, id)) == p.(id := Some(id), phoneNumber := "")
  {
    assert FirstGiven(ToWireUpdate(p, id)) == GivenNames(p);
    JoinSplit(p.middleNames, ' ');
  }

  /** With the phone kept, reading back an update payload reproduces every field. */
  lemma UpdateKeepingPhoneRoundTrip(p: FlatPatient, id: string)
    ensures FromWire(ToWireUpdateKeepingPhone(p, id)) == p.(id := Some(id))
  {
    var w := ToWireUpdateKeepingPhone(p, id);
    assert FirstGiven(w) == GivenNames(p);
    JoinSplit(p.middleNames, ' ');
    assert FirstMatchAt(w.telecom.value, IsPhone, 0);
  }

  /**
   * The wire resources the create payload can produce: no id, one name with
   * a given name followed by space-free middle tokens, one phone contact
   * point, gender and birth date present.
   */
  ghost predicate CreateShaped(w: Patient)
  {
    && w.resourceType == PatientType && w.id.None?
    && w.name.Some? && |w.name.value| == 1
    && w.name.value[0].family.Some?
    && w.name.value[0].given.Some? && |w.name.value[0].given.value| >= 2
    && (forall i :: 1 <= i < |w.name.value[0].given.value| ==> ' ' !in w.name.value[0].given.value[i])
    && w.telecom.Some? && |w.telecom.value| == 1
    && w.telecom.value[0].system == Some(PhoneSystem) && w.telecom.value[0].value.Some?
    && w.gender.Some? && w.birthDate.Some?
  }

  /** Every create payload has that shape. */
  lemma CreatePayloadShaped(p: FlatPatient)
    ensures CreateShaped(ToWireCreate(p))
  {
    var given := GivenNames(p);
    SplitTokensFree(p.middleNames, ' ');
    assert forall i :: 1 <= i < |given| ==> given[i] == Split(p.middleNames, ' ')[i - 1];
  }

  /** A resource of that shape survives being read into the form and posted again. */
  lemma WireRoundTrip(w: Patient)
    requires CreateShaped(w)
    ensures ToWireCreate(FromWire(w)) == w
  {
    var g := w.name.value[0].given.value;
    assert FirstGiven(w) == g;
    FromWireMiddleNames(w);
    var p := FromWire(w);
    assert FirstMatchAt(w.telecom.value, IsPhone, 0);
    assert GivenNames(p) == [g[0]] + g[1..] == g;
    assert NameOf(p) == w.name.value;
    assert p.phoneNumber == w.telecom.value[0].value.value;
    assert w.telecom.value == [w.telecom.value[0]];
  }

  /**
   * A loaded patient with a single given name gains an empty second given
   * name when read into the form and written back unchanged.
   */
  lemma SingleGivenNameGainsBlank(w: Patient, g: string, id: string)
    requires FirstGiven(w) == [g]
    ensures FromWire(w).middleNames == ""
    ensures ToWireUpdate(FromWire(w), id).name.value[0].given == Some([g, ""])
  {
    assert FirstGiven(w)[1..] == [];
    BlankMiddleNames(FromWire(w));
  }

  /** A sample patient: Jane Ann Marie Smith. */
  const Jane := FlatPatient(None, "Jane", "Ann Marie", "Smith", "female", "5551234567", "1990-01-01")

  /** Two space-free middle names become the second and third given names. */
  lemma TwoMiddleNames(p: FlatPatient, a: string, b: string)
    requires p.middleNames == a + " " + b && ' ' !in a && ' ' !in b
    ensures GivenNames(p) == [p.givenName, a, b]
  {
    SplitFirstToken(a, ' ', b);
    SplitWhole(b, ' ');
  }

  /** A patient with two middle names: "Ann Marie" gives the given names Jane, Ann, Marie. */
  lemma JaneCreatePayload()
    ensures ToWireCreate(Jane).name == Some([HumanName(Some("Smith"), Some(["Jane", "Ann", "Marie"]))])
    ensures ToWireCreate(Jane).telecom == Some([ContactPoint(Some("phone"), Some("5551234567"))])
  {
    assert Jane.middleNames == "Ann" + " " + "Marie";
    TwoMiddleNames(Jane, "Ann", "Marie");
  }

  /** A blank middle-names field still contributes one empty given name. */
  lemma BlankMiddleNames(p: FlatPatient)
    requires p.middleNames == ""
    ensures GivenNames(p) == [p.givenName, ""]
  {
  }

  /** The phone is found behind a fax entry. */
  lemma PhoneBehindFax()
    ensures var ts := [ContactPoint(Some("fax"), Some("5550000")), ContactPoint(Some("phone"), Some("5551234"))];
            FromWire(Patient(PatientType, None, None, Some(ts), None, None)).phoneNumber == "5551234"
  {
    var ts := [ContactPoint(Some("fax"), Some("5550000")), ContactPoint(Some("phone"), Some("5551234"))];
    assert !IsPhone(ts[0]);
    assert FirstMatchAt(ts, IsPhone, 1);
  }
}

=== FILE: seqs.dfy ===
/** The array methods the client chains: `filter`, `at(0)` and `map`. */
module Seqs {
  import opened Optional

  /** `xs.filter(keep)`: the kept elements, in their original order. */
  function Filter<T>(xs: seq<T>, keep: T -> bool): (ys: seq<T>)
    ensures |ys| <= |xs|
    ensures forall y :: y in ys ==> y in xs && keep(y)
    ensures forall x :: x in xs && keep(x) ==> x in ys
  {
    if |xs| == 0 then []
    else if keep(xs[0]) then [xs[0]] + Filter(xs[1..], keep)
    else Filter(xs[1..], keep)
  }

  /** `xs.at(0)`: the first element, or undefined for an empty array. */
  function First<T>(xs: seq<T>): (r: Option<T>)
    ensures r.None? <==> |xs| == 0
    ensures r.Some? ==> r.value == xs[0]
  {
    if |xs| == 0 then None else Some(xs[0])
  }

  /** `xs.map(f)`: same length, same order. */
  function Map<T, U>(xs: seq<T>, f: T -> U): (ys: seq<U>)
    ensures |ys| == |xs|
    ensures forall i :: 0 <= i < |xs| ==> ys[i] == f(xs[i])
  {
    if |xs| == 0 then [] else [f(xs[0])] + Map(xs[1..], f)
  }

  /** Index `i` holds the first element of `xs` that satisfies `keep`. */
  ghost predicate FirstMatchAt<T>(xs: seq<T>, keep: T -> bool, i: int)
  {
    0 <= i < |xs| && keep(xs[i]) && forall j :: 0 <= j < i ==> !keep(xs[j])
  }

  /**
   * `xs.filter(keep).at(0)` is the first matching element wherever it sits,
   * and is undefined exactly when nothing matches.
   */
  lemma {:induction false} FirstOfFilter<T>(xs: seq<T>, keep: T -> bool)
    ensures First(Filter(xs, keep)).None? <==> (forall i :: 0 <= i < |xs| ==> !keep(xs[i]))
    ensures forall i :: FirstMatchAt(xs, keep, i) ==> First(Filter(xs, keep)) == Some(xs[i])
    decreases |xs|
  {
    if |xs| > 0 {
      if keep(xs[0]) {
        assert Filter(xs, keep) == [xs[0]] + Filter(xs[1..], keep);
      } else {
        FirstOfFilter(xs[1..], keep);
        forall i | FirstMatchAt(xs, keep, i)
          ensures FirstMatchAt(xs[1..], keep, i - 1)
        {
          assert i > 0;
          forall j | 0 <= j < i - 1
            ensures !keep(xs[1..][j])
          {
            assert xs[1..][j] == xs[j + 1];
          }
        }
        if forall i :: 0 <= i < |xs[1..]| ==> !keep(xs[1..][i]) {
          forall i | 0 <= i < |xs|
            ensures !keep(xs[i])
          {
            if i > 0 {
              assert xs[i] == xs[1..][i - 1];
            }
          }
        }
      }
    }
  }
}

=== FILE: text.dfy ===
/**
 * String helpers with the semantics of the JavaScript built-ins the client
 * relies on: `split` and `join` on a one-character separator, `includes`,
 * number-to-string conversion and upper-casing a first character.
 */
module Text {

  /** Number of occurrences of `c` in `s`. */
  function Count(s: string, c: char): nat
  {
    if |s| == 0 then 0 else (if s[0] == c then 1 else 0) + Count(s[1..], c)
  }

  /**
   * `s.split(sep)`: the empty string gives `[""]`, and two adjacent separators
   * give an empty token between them. No token is ever filtered out.
   */
  function Split(s: string, sep: char): (parts: seq<string>)
    ensures |parts| >= 1
    decreases |s|
  {
    if |s| == 0 then [""]
    else
      var rest := Split(s[1..], sep);
      if s[0] == sep then [""] + rest
      else [[s[0]] + rest[0]] + rest[1..]
  }

  /** `parts.join(sep)`: the empty list joins to `""`. */
  function Join(parts: seq<string>, sep: char): string
  {
    if |parts| == 0 then ""
    else if |parts| == 1 then parts[0]
    else parts[0] + [sep] + Join(parts[1..], sep)
  }

  /** Joining is undone by splitting: `split` followed by `join` is the identity. */
  lemma {:induction false} JoinSplit(s: string, sep: char)
    ensures Join(Split(s, sep), sep) == s
    decreases |s|
  {
    if |s| > 0 {
      var rest := Split(s[1..], sep);
      JoinSplit(s[1..], sep);
      if s[0] == sep {
        assert Split(s, sep) == [""] + rest;
        assert ([""] + rest)[1..] == rest;
      } else {
        var parts := Split(s, sep);
        assert parts == [[s[0]] + rest[0]] + rest[1..];
        if |rest| == 1 {
          assert parts == [[s[0]] + rest[0]];
        } else {
          assert parts[1..] == rest[1..];
          assert Join(rest, sep) == rest[0] + [sep] + Join(rest[1..], sep);
        }
      }
    }
  }

  /** A string splits into one more token than it has separators. */
  lemma {:induction false} SplitLength(s: string, sep: char)
    ensures |Split(s, sep)| == Count(s, sep) + 1
    decreases |s|
  {
    if |s| > 0 {
      SplitLength(s[1..], sep);
    }
  }

  /** No token produced by `split` contains the separator. */
  lemma {:induction false} SplitTokensFree(s: string, sep: char)
    ensures forall i :: 0 <= i < |Split(s, sep)| ==> sep !in Split(s, sep)[i]
    decreases |s|
  {
    if |s| > 0 {
      var rest := Split(s[1..], sep);
      SplitTokensFree(s[1..], sep);
      if s[0] != sep {
        var parts := Split(s, sep);
        assert parts[0] == [s[0]] + rest[0];
        forall i | 1 <= i < |parts|
          ensures sep !in parts[i]
        {
          assert parts[i] == rest[i];
        }
      }
    }
  }

  /** A string without the separator splits to itself alone. */
  lemma {:induction false} SplitWhole(a: string, sep: char)
    requires sep !in a
    ensures Split(a, sep) == [a]
    decreases |a|
  {
    if |a| > 0 {
      SplitWhole(a[1..], sep);
      assert [a[0]] + a[1..] == a;
    }
  }

  /** Splitting at the first separator peels off the leading token. */
  lemma {:induction false} SplitFirstToken(a: string, sep: char, t: string)
    requires sep !in a
    ensures Split(a + [sep] + t, sep) == [a] + Split(t, sep)
    decreases |a|
  {
    var s := a + [sep] + t;
    if |a| == 0 {
      assert s[1..] == t;
    } else {
      assert s[1..] == a[1..] + [sep] + t;
      SplitFirstToken(a[1..], sep, t);
      assert [a[0]] + a[1..] == a;
    }
  }

  /** Splitting is undone by joining, for a non-empty list of separator-free tokens. */
  lemma {:induction false} SplitJoin(parts: seq<string>, sep: char)
    requires |parts| >= 1
    requires forall i :: 0 <= i < |parts| ==> sep !in parts[i]
    ensures Split(Join(parts, sep), sep) == parts
    decreases |parts|
  {
    if |parts| == 1 {
      SplitWhole(parts[0], sep);
    } else {
      SplitJoin(parts[1..], sep);
      SplitFirstToken(parts[0], sep, Join(parts[1..], sep));
    }
  }

  /** The index of the first `c` in `s`, or `|s|` if there is none. */
  function IndexOf(s: string, c: char): nat
  {
    if |s| == 0 || s[0] == c then 0 else 1 + IndexOf(s[1..], c)
  }

  /** The first `c` after a prefix free of `c` sits right after that prefix. */
  lemma {:induction false} IndexAfterFreePrefix(a: string, c: char, b: string)
    requires c !in a
    ensures IndexOf(a + [c] + b, c) == |a|
    decreases |a|
  {
    if |a| > 0 {
      assert (a + [c] + b)[1..] == a[1..] + [c] + b;
      IndexAfterFreePrefix(a[1..], c, b);
    }
  }

  /** `t` occurs in `s` starting at index `i`. */
  ghost predicate OccursAt(s: string, t: string, i: int)
  {
    0 <= i && i + |t| <= |s| && s[i..i + |t|] == t
  }

  /** `s` contains `t` as a contiguous substring. */
  ghost predicate Contains(s: string, t: string)
  {
    exists i :: OccursAt(s, t, i)
  }

  /** `s.includes(t)`, scanning left to right. */
  function Includes(s: string, t: string): bool
    decreases |s|
  {
    if |t| > |s| then false
    else if s[..|t|] == t then true
    else Includes(s[1..], t)
  }

  /** The scan finds `t` exactly when `t` occurs somewhere in `s`. */
  lemma {:induction false} IncludesIff(s: string, t: string)
    ensures Includes(s, t) <==> Contains(s, t)
    decreases |s|
  {
    if |t| <= |s| && s[..|t|] == t {
      assert OccursAt(s, t, 0);
    } else if |t| <= |s| {
      IncludesIff(s[1..], t);
      if Contains(s[1..], t) {
        var j :| OccursAt(s[1..], t, j);
        forall k | 0 <= k < |t|
          ensures s[j + 1..j + 1 + |t|][k] == t[k]
        {
          assert s[1..][j..j + |t|][k] == t[k];
        }
        assert s[j + 1..j + 1 + |t|] == t;
        assert OccursAt(s, t, j + 1);
      }
      if Contains(s, t) {
        var i :| OccursAt(s, t, i);
        assert i != 0;
        assert s[1..][i - 1..i - 1 + |t|] == s[i..i + |t|];
        assert OccursAt(s[1..], t, i - 1);
      }
    }
  }

  /** A string contains every infix of itself. */
  lemma ContainsInfix(a: string, t: string, b: string)
    ensures Contains(a + t + b, t)
  {
    assert (a + t + b)[|a|..|a| + |t|] == t;
    assert OccursAt(a + t + b, t, |a|);
  }

  /** A string contained in a suffix is contained in the whole. */
  lemma ContainsInSuffix(a: string, s: string, t: string)
    requires Contains(s, t)
    ensures Contains(a + s, t)
  {
    var i :| OccursAt(s, t, i);
    assert (a + s)[|a| + i..|a| + i + |t|] == s[i..i + |t|];
    assert OccursAt(a + s, t, |a| + i);
  }

  /** A string without the first character of `t` cannot contain `t`. */
  lemma NotContainsWithoutHead(s: string, t: string)
    requires |t| > 0 && t[0] !in s
    ensures !Contains(s, t)
  {
    forall i | 0 <= i
      ensures !OccursAt(s, t, i)
    {
      if i + |t| <= |s| {
        assert s[i..i + |t|][0] == s[i];
      }
    }
  }

  predicate IsDigit(c: char)
  {
    '0' <= c <= '9'
  }

  function DigitChar(d: nat): (c: char)
    requires d < 10
    ensures IsDigit(c)
  {
    ('0' as int + d) as char
  }

  /** The decimal text of a non-negative integer, as `${n}` renders it. */
  function Decimal(n: nat): (s: string)
    ensures |s| >= 1
    ensures forall i :: 0 <= i < |s| ==> IsDigit(s[i])
    decreases n
  {
    if n < 10 then [DigitChar(n)] else Decimal(n / 10) + [DigitChar(n % 10)]
  }

  function DigitValue(c: char): (d: nat)
    requires IsDigit(c)
    ensures d < 10
  {
    c as int - '0' as int
  }

  /** The value of a string of decimal digits. */
  function DigitsValue(s: string): nat
    requires forall i :: 0 <= i < |s| ==> IsDigit(s[i])
    decreases |s|
  {
    if |s| == 0 then 0
    else DigitsValue(s[..|s| - 1]) * 10 + DigitValue(s[|s| - 1])
  }

  /** Reading the decimal text back gives the number: `Decimal` is injective. */
  lemma {:induction false} DecimalRoundTrip(n: nat)
    ensures DigitsValue(Decimal(n)) == n
    decreases n
  {
    if n >= 10 {
      var s := Decimal(n);
      assert s[..|s| - 1] == Decimal(n / 10);
      DecimalRoundTrip(n / 10);
    }
  }

  /** `toUpperCase` on one character, for the ASCII letters. */
  function UpperChar(c: char): char
  {
    if 'a' <= c <= 'z' then (c as int - 32) as char else c
  }

  /** `s.charAt(0).toUpperCase() + s.slice(1)`. */
  function Capitalise(s: string): (r: string)
    ensures |r| == |s|
    ensures |s| > 0 ==> r[0] == UpperChar(s[0]) && r[1..] == s[1..]
  {
    if |s| == 0 then "" else [UpperChar(s[0])] + s[1..]
  }
}

=== FILE: update_patient.dfy ===
/**
 * The update/delete form: flattening a fetched Patient into form fields,
 * and the state transitions of its load effect and handlers. Each async
 * handler is split into the part before the request (which returns the
 * request it issues) and the part after the request settles.
 */
module UpdatePatient {
  import opened Optional
  import opened Text
  import opened Seqs
  import opened Fhir
  import opened Records
  import opened Http
  import opened FhirApi

  /** `resource?.name?.at(0)` */
  function FirstName(w: Patient): Option<HumanName>
  {
    if w.name.Some? then First(w.name.value) else None
  }

  /** `resource?.name?.at(0)?.given`, with an absent list read as empty. */
  function FirstGiven(w: Patient): seq<string>
  {
    var n := FirstName(w);
    if n.Some? && n.value.given.Some? then n.value.given.value else []
  }

  /** `resource?.telecom?.filter(x => x.system === 'phone')?.at(0)?.value || ''` */
  function PhoneOf(w: Patient): (phone: string)
    ensures w.telecom.None? ==> phone == ""
    ensures w.telecom.Some? && (forall i :: 0 <= i < |w.telecom.value| ==> !IsPhone(w.telecom.value[i]))
      ==> phone == ""
    ensures forall i :: w.telecom.Some? && FirstMatchAt(w.telecom.value, IsPhone, i) ==>
              phone == w.telecom.value[i].value.GetOr("")
  {
    match w.telecom
    case None => ""
    case Some(ts) =>
      FirstOfFilter(ts, IsPhone);
      match First(Filter(ts, IsPhone))
      case None => ""
      case Some(cp) => cp.value.GetOr("")
  }

  /**
   * The `setPatient` block of the load effect: every missing piece of the
   * resource becomes `""`, except `id`, which is copied as it is.
   */
  function FromWire(w: Patient): (r: FlatPatient)
    ensures r.id == w.id
    ensures r.givenName == (if |FirstGiven(w)| > 0 then FirstGiven(w)[0] else "")
    ensures r.middleNames == (if |FirstGiven(w)| > 0 then Join(FirstGiven(w)[1..], ' ') else "")
    ensures r.familyName == (if FirstName(w).Some? then FirstName(w).value.family.GetOr("") else "")
    ensures r.gender == w.gender.GetOr("") && r.birthDate == w.birthDate.GetOr("")
    ensures r.phoneNumber == PhoneOf(w)
  {
    var given := FirstGiven(w);
    var n := FirstName(w);
    FlatPatient(
      w.id,
      if |given| > 0 then given[0] else "",
      if |given| > 0 then Join(given[1..], ' ') else "",
      if n.Some? then n.value.family.GetOr("") else "",
      w.gender.GetOr(""),
      PhoneOf(w),
      w.birthDate.GetOr(""))
  }

  /**
   * The middle-names field splits back into the given names after the first,
   * provided there are at least two and none of the later ones holds a space.
   */
  lemma FromWireMiddleNames(w: Patient)
    requires |FirstGiven(w)| >= 2
    requires forall i :: 1 <= i < |FirstGiven(w)| ==> ' ' !in FirstGiven(w)[i]
    ensures FromWire(w).givenName == FirstGiven(w)[0]
    ensures Split(FromWire(w).middleNames, ' ') == FirstGiven(w)[1..]
  {
    var g := FirstGiven(w);
    assert forall i :: 0 <= i < |g[1..]| ==> g[1..][i] == g[i + 1];
    SplitJoin(g[1..], ' ');
  }

  /** The component's state variables. */
  datatype UpdateForm = UpdateForm(
    error: string,
    isLoading: bool,
    patientLoaded: bool,
    patientDeleted: bool,
    patientUpdated: bool,
    patient: FlatPatient)

  /** The state before the load effect runs: no flags set, every field `""`. */
  const Initial := UpdateForm("", false, false, false, false, Blank(Some("")))

  /** The load effect: nothing happens without a route id; otherwise start loading and fetch it. */
  function LoadBegin(f: UpdateForm, c: Client, routeId: Option<string>): (r: (UpdateForm, Option<Request>))
    ensures routeId.None? || routeId.value == "" ==> r == (f, None)
    ensures routeId.Some? && routeId.value != "" ==>
      r.0 == f.(isLoading := true) && r.1 == Some(GetResourceById(c, PatientType, routeId.value))
  {
    if routeId.None? || routeId.value == "" then (f, None)
    else (f.(isLoading := true), Some(GetResourceById(c, PatientType, routeId.value)))
  }

  /**
   * The load effect once the fetch settles. The status is not inspected. A
   * body that fails to parse rejects a promise nobody handles, so nothing changes.
   */
  function LoadFinish(f: UpdateForm, o: Settled<Patient>): (r: UpdateForm)
    ensures o.Fulfilled? && o.response.body.Parsed? ==>
      r == f.(patientLoaded := true, isLoading := false, patient := FromWire(o.response.body.value))
    ensures o.Fulfilled? && o.response.body.ParseError? ==> r == f
    ensures o.Rejected? ==> r == f.(isLoading := false, error := CaughtMessage(o.reason, ""))
  {
    match o
    case Rejected(t) => f.(isLoading := false, error := CaughtMessage(t, ""))
    case Fulfilled(resp) =>
      match resp.body
      case Parsed(w) => f.(patientLoaded := true, isLoading := false, patient := FromWire(w))
      case ParseError(_) => f
  }

  /** `handleInput`: only the named field of the patient changes. */
  function HandleInput(f: UpdateForm, field: FormField, value: string): (r: UpdateForm)
    ensures FieldValue(r.patient, field) == value
    ensures forall g :: g != field ==> FieldValue(r.patient, g) == FieldValue(f.patient, g)
    ensures r.patient.id == f.patient.id
    ensures r.(patient := f.patient) == f
  {
    f.(patient := WithField(f.patient, field, value))
  }

  /** Start of `handleDelete`: loading on, the updated flag cleared, DELETE issued. */
  function DeleteBegin(f: UpdateForm, c: Client, id: string): (r: (UpdateForm, Request))
    ensures r.0 == f.(isLoading := true, patientUpdated := false)
    ensures r.1.verb == DELETE && r.1.url == InstanceUrl(c, PatientType, id)
    ensures r.1.contentType == Some(JsonContentType) && r.1.body.None?
  {
    (f.(isLoading := true, patientUpdated := false), DeleteResource(c, PatientType, id))
  }

  /**
   * End of `handleDelete`: success marks the patient deleted and blanks all
   * seven fields; any failure stores its message and leaves the fields alone.
   * Loading is off either way.
   */
  function DeleteFinish<B>(f: UpdateForm, o: Settled<B>): (r: UpdateForm)
    ensures !r.isLoading
    ensures r.patientUpdated == f.patientUpdated && r.patientLoaded == f.patientLoaded
    ensures Succeeded(o) ==> r.patientDeleted && r.patient == Blank(Some("")) && r.error == f.error
    ensures !Succeeded(o) ==>
      r.patientDeleted == f.patientDeleted && r.patient == f.patient && r.error == FailureMessage(o, "")
    ensures o.Fulfilled? && !o.response.ok ==>
      r.error == RequestFailedMessage(o.response.status, o.response.statusText)
  {
    if Succeeded(o) then f.(patientDeleted := true, patient := Blank(Some("")), isLoading := false)
    else f.(error := FailureMessage(o, ""), isLoading := false)
  }

  /** Start of `handleSubmit`: loading on, the updated flag cleared, PUT of the current fields. */
  function SubmitBegin(f: UpdateForm, c: Client, id: string): (r: (UpdateForm, Request))
    ensures r.0 == f.(isLoading := true, patientUpdated := false)
    ensures r.1.verb == PUT && r.1.url == InstanceUrl(c, PatientType, id)
    ensures r.1.contentType == Some(JsonContentType)
    ensures r.1.body == Some(ToWireUpdate(f.patient, id))
  {
    (f.(isLoading := true, patientUpdated := false), PutResource(c, PatientType, id, f.patient))
  }

  /**
   * End of `handleSubmit`: success sets the updated flag; any failure stores
   * its message. The fields are never touched and loading is off either way.
   */
  function SubmitFinish<B>(f: UpdateForm, o: Settled<B>): (r: UpdateForm)
    ensures !r.isLoading && r.patient == f.patient
    ensures r.patientDeleted == f.patientDeleted && r.patientLoaded == f.patientLoaded
    ensures Succeeded(o) ==> r.patientUpdated && r.error == f.error
    ensures !Succeeded(o) ==> r.patientUpdated == f.patientUpdated && r.error == FailureMessage(o, "")
    ensures o.Fulfilled? && !o.response.ok ==>
      r.error == RequestFailedMessage(o.response.status, o.response.statusText)
  {
    if Succeeded(o) then f.(patientUpdated := true, isLoading := false)
    else f.(error := FailureMessage(o, ""), isLoading := false)
  }

  /** The Update and Delete buttons are disabled once the patient is deleted. */
  predicate ButtonsDisabled(f: UpdateForm)
  {
    f.patientDeleted
  }

  /** Everything that can happen to the form, one event at a time. */
  datatype Event =
    | LoadStarted(loadClient: Client, routeId: Option<string>)
    | Loaded(load: Settled<Patient>)
    | Input(field: FormField, value: string)
    | DeleteStarted(client: Client, id: string)
    | DeleteSettled(outcome: Settled<()>)
    | SubmitStarted(client: Client, id: string)
    | SubmitSettled(outcome: Settled<()>)

  function Step(f: UpdateForm, e: Event): UpdateForm
  {
    match e
    case LoadStarted(c, routeId) => LoadBegin(f, c, routeId).0
    case Loaded(o) => LoadFinish(f, o)
    case Input(field, value) => HandleInput(f, field, value)
    case DeleteStarted(c, id) => DeleteBegin(f, c, id).0
    case DeleteSettled(o) => DeleteFinish(f, o)
    case SubmitStarted(c, id) => SubmitBegin(f, c, id).0
    case SubmitSettled(o) => SubmitFinish(f, o)
  }

  function Run(f: UpdateForm, es: seq<Event>): UpdateForm
    decreases |es|
  {
    if |es| == 0 then f else Run(Step(f, es[0]), es[1..])
  }

  /** Nothing resets the deleted flag: once disabled, the buttons stay disabled. */
  lemma {:induction false} DeletedIsFinal(f: UpdateForm, es: seq<Event>)
    requires ButtonsDisabled(f)
    ensures ButtonsDisabled(Run(f, es))
    decreases |es|
  {
    if |es| > 0 {
      DeletedIsFinal(Step(f, es[0]), es[1..]);
    }
  }

  /** The event that marks the patient deleted: a delete request that succeeds. */
  predicate DeleteSucceeds(e: Event)
  {
    e.DeleteSettled? && Succeeded(e.outcome)
  }

  /**
   * The buttons end up disabled exactly when they started disabled or some
   * event was a successful delete.
   */
  lemma {:induction false} DisabledIff(f: UpdateForm, es: seq<Event>)
    ensures ButtonsDisabled(Run(f, es)) <==>
      ButtonsDisabled(f) || exists i :: 0 <= i < |es| && DeleteSucceeds(es[i])
    decreases |es|
  {
    if |es| > 0 {
      var g := Step(f, es[0]);
      assert ButtonsDisabled(g) <==> ButtonsDisabled(f) || DeleteSucceeds(es[0]);
      DisabledIff(g, es[1..]);
      if exists j :: 0 <= j < |es[1..]| && DeleteSucceeds(es[1..][j]) {
        var j :| 0 <= j < |es[1..]| && DeleteSucceeds(es[1..][j]);
        assert DeleteSucceeds(es[j + 1]);
      }
      if exists i :: 0 <= i < |es| && DeleteSucceeds(es[i]) {
        var i :| 0 <= i < |es| && DeleteSucceeds(es[i]);
        if i > 0 {
          assert DeleteSucceeds(es[1..][i - 1]);
        }
      }
    }
  }

  /**
   * The form starts with both buttons enabled, and they stay enabled until a
   * delete succeeds.
   */
  lemma ButtonsEnabledUntilDelete(es: seq<Event>)
    ensures !ButtonsDisabled(Initial)
    ensures ButtonsDisabled(Run(Initial, es)) <==> exists i :: 0 <= i < |es| && DeleteSucceeds(es[i])
  {
    DisabledIff(Initial, es);
  }

  /** A delete that succeeds disables the buttons for the rest of the form's life. */
  lemma DeleteDisablesButtons<B>(f: UpdateForm, c: Client, id: string, o: Settled<B>, es: seq<Event>)
    requires Succeeded(o)
    ensures ButtonsDisabled(Run(DeleteFinish(DeleteBegin(f, c, id).0, o), es))
  {
    DeletedIsFinal(DeleteFinish(DeleteBegin(f, c, id).0, o), es);
  }
}
